=== FILE: README.md ===
# Security Risk Management Assistant — front-end decision logic in Dafny

The Security Risk Management Assistant is a browser single-page application. It has two chat
screens that talk to a risk-assessment agent, a project creation form, and an administrator
area for listing users, toggling their status, deleting them and assigning roles. Access is
gated by a role kept in the browser's persisted storage.

Almost all of the application is layout. This project models the small part that makes
decisions:

- **Session store.** The persisted storage is a `map<string, string>` holding `userToken`,
  `userRole` and `adminRole`. Each login, logout and view entry is a pure function from the
  old store to the new one. Navigation comes back as data (`Nav`).
- **Role tables.** The backend role codes `"1"`, `"2"` and `"3"` stand for `standard`,
  `professional` and `consultant`. The status codes are `"A"` (active) and `"I"` (inactive).
- **Landing screen.** The stored role decides the four feature flags and the project list,
  and a missing role redirects to `/login`. The chat box appends the user's trimmed message
  under a fresh id. On desktop the projects accordion is always open.
- **Project analysis screen.** `getRiskLevel` sorts a risk percentage into four bands. The
  chat appends the user's message at once, then appends the agent's reply, or an error
  message when the call fails.
- **Admin panels.** This covers the mapping of backend user records, the status toggle, the
  delete (with its confirmation), and the role-assignment table.
- **Project form.** Blurring a blank name restores the default name. Uploading a file
  appends a document under the next id.

Each network call is not performed. Its outcome is an input (`Http.Reply`): a network error
carrying its message, or a response with a status, a status text and a body. The body is
either text the JSON parser rejects, carrying the parser's error message, or a JSON object.
The shared `Http.ReadJson` / `Http.ReadDone` functions describe what every handler's
`try`/`catch` does with that outcome. A non-2xx status becomes
`"<prefix>: <status> - <message or 'Error desconocido'>"`.

Modules follow the source files: `Home`, `ProjectAnalysis`, `UserManager`, `AssignRoles`,
`CreateProject`, `Login` and `LoginAdmin`. Several modules are shared:

- `Text`: JavaScript's `trim` and the decimal text of an integer.
- `Ids`: the `max + 1` id allocation.
- `Chat`: the transcript record.
- `Http`, `Roles` and `Session`.

`Flows` relates the screens through the store.

Points of the code's behaviour worth knowing; the model follows each of them as written:

- **Logout.** The landing screen's logout removes only `userRole`; `userToken` stays stored
  (Home.js:118-121).
- **Unknown role codes.** They do not fall back to `guest`. The login view refuses them with
  an error. The user manager shows the record's own `rol.rol` name instead.
- **Agent call.** The agent request always carries agent id `"0"`. The landing screen's send
  makes no backend call at all.
- **Missing reply text.** The fallback text replaces a `response` that is missing and also
  one that is empty, because the code takes the first truthy value.

## Model

| member | source | states |
|---|---|---|
| Text.Trim | security-risk/src/Home.js:89 | `trim` removes a blank prefix and a blank suffix. The result is empty exactly when the input is all white space, and otherwise starts and ends with a kept character. |
| Text.TrimSurrounded | security-risk/src/ProjectAnalysis.js:101 | Reference characterisation: trimming `p + m + q` with `p` and `q` blank and `m` bordered gives back exactly `m`. |
| Text.TrimIdempotent | security-risk/src/crear_project.js:51 | Trimming twice is the same as trimming once. |
| Text.NatToString | security-risk/src/ProjectAnalysis.js:129 | A status code prints as decimal digits, non-empty and without leading zeros. |
| Text.ParseNatToString | security-risk/src/ProjectAnalysis.js:129 | Reading the printed status back as a number gives the status. |
| Text.IntToString | security-risk/src/crear_project.js:59 | An integer prints with a leading `-` exactly when it is negative, followed by non-empty decimal digits, with no leading zero, that read back as its magnitude. |
| Text.IntToStringInjective | security-risk/src/crear_project.js:59 | Different integers print differently. |
| Ids.Max | security-risk/src/Home.js:90 | `Math.max` of a non-empty id list is one of the ids and is at least every id. |
| Ids.Next | security-risk/src/crear_project.js:58 | The allocated id exceeds every id in use. It is 1 for an empty list, and otherwise one more than an id in use. |
| Ids.NextKeepsDistinct | security-risk/src/crear_project.js:58-59 | Appending the allocated id keeps the ids pairwise distinct. |
| Chat.NextId | security-risk/src/ProjectAnalysis.js:102 | A new message's id is above every id in the transcript. It is 1 for an empty transcript, and otherwise the largest id plus one. |
| Chat.AppendFreshKeepsUnique | security-risk/src/Home.js:91 | Appending a message whose id exceeds all others keeps message ids unique. |
| Http.ErrorDetail | security-risk/src/UserManagerPanel.js:83-84 | The detail is the body's `message`, or the status text when the body is not JSON, or `Error desconocido` when that is empty. It is never empty. |
| Http.StatusError | security-risk/src/ProjectAnalysis.js:128-129 | A non-2xx error message is exactly the handler's prefix, `: `, the status in decimal, ` - ` and the error detail: it starts with the prefix and `: `, the status digits come next, it ends with ` - ` and the detail, and its length leaves room for nothing else. |
| Http.StatusErrorNamesStatus | security-risk/src/ProjectAnalysis.js:129 | The status printed in the error message can be read back as the status. |
| Http.ReadJson | security-risk/src/ProjectAnalysis.js:113-132 | The handler gets the payload exactly when the status is 2xx and the body is JSON. A network error passes its message through. A non-2xx status gives the full status error text. A 2xx body that is not JSON gives the parser's message. |
| Http.ReadDone | security-risk/src/UserManagerPanel.js:130-137 | The action is accepted exactly when the status is 2xx and the body is JSON or the status is 204. A network error passes its message through, a non-2xx status gives the full status error text, and a 2xx body other than 204 that is not JSON gives the parser's message. |
| Http.ReadDoneAgreesWithReadJson | security-risk/src/UserManagerPanel.js:130-137 | Except for a 204 reply, the body-discarding reader accepts exactly the replies the JSON reader accepts and refuses the rest with the same error. |
| Roles.BackendRoleToFrontend | security-risk/src/UserManagerPanel.js:53-57 | Exactly the codes `"1"`, `"2"` and `"3"` are mapped, each to the name of the role with that code. |
| Roles.FrontendRoleToBackend | security-risk/src/UserManagerPanel.js:47-51 | Exactly the three role names are mapped, each to that role's code. |
| Roles.RoleTablesInverse | security-risk/src/UserManagerPanel.js:47-57 | A name maps to a code if and only if that code maps back to the name. |
| Roles.RoleRoundTrip | security-risk/src/Login.js:27-31 | Every role survives name to code to name, and code to name to code. |
| Roles.StatusCode | security-risk/src/UserManagerPanel.js:59-62 | A status prints as `"A"` or `"I"`, and as `"A"` exactly when the user is active. |
| Roles.StatusFromCode | security-risk/src/UserManagerPanel.js:64-67 | Exactly `"A"` and `"I"` are read as a status: `"A"` as active and `"I"` as inactive. |
| Roles.StatusTablesInverse | security-risk/src/UserManagerPanel.js:59-67 | `true` maps to `"A"` and `false` to `"I"`, and the reverse table reads them back, in both directions. |
| Session.RemoveKeys | security-risk/src/Login.js:35-37 | Removing keys drops exactly those keys and keeps every other value. |
| Session.AdminLogout | security-risk/src/UserManagerPanel.js:109-112 | Admin logout drops only `adminRole` and goes to `/admin-login`. |
| Home.Enter | security-risk/src/Home.js:43-49 | A stored role that is present and non-empty is used, with no redirect. Otherwise the role is `guest` and the screen redirects to `/login`. |
| Home.FlagsFor | security-risk/src/Home.js:51-54 | All four feature flags are on if and only if the role is `professional`, and all are off otherwise. |
| Home.ProjectsFor | security-risk/src/Home.js:56-61 | The project list has four distinct entries for a professional and is empty for any other role. |
| Home.SendMessage | security-risk/src/Home.js:88-93 | A blank input changes nothing. Otherwise exactly one user message carrying the trimmed text is appended with a fresh max+1 id (1 when empty), earlier messages are kept, and the input is cleared. |
| Home.SendKeepsIdsUnique | security-risk/src/Home.js:90-91 | Sending keeps message ids unique. |
| Home.Logout | security-risk/src/Home.js:118-121 | Logout removes only `userRole`; `userToken` and all other keys keep their values. The screen goes to `/login`. |
| Home.InitialAccordion | security-risk/src/Home.js:74 | The accordion starts open exactly on desktop. |
| Home.AccordionStep | security-risk/src/Home.js:76-125 | On desktop a request always leaves the accordion open. On mobile it follows the request. A real layout change opens it exactly when the new layout is desktop. A report of the layout already in force changes nothing. |
| Home.DesktopAlwaysExpanded | security-risk/src/Home.js:123-125 | After any sequence of requests and layout changes from mount, a desktop layout has the accordion open. |
| ProjectAnalysis.GetRiskLevel | security-risk/src/ProjectAnalysis.js:69-74 | Up to 25 gives `Riesgo Bajo`/green, 26..50 `Riesgo Bajo-Medio`/yellow, 51..75 `Riesgo Medio-Alto`/orange and above 75 `Riesgo Alto`/red. It is defined for every risk. |
| ProjectAnalysis.GetRiskLevelByTable | security-risk/src/ProjectAnalysis.js:69-74 | The band equals the band table read at the number of bounds (25, 50, 75) the risk exceeds. |
| ProjectAnalysis.ExceededMonotone | security-risk/src/ProjectAnalysis.js:69-74 | A higher risk exceeds at least as many bounds. |
| ProjectAnalysis.GetRiskLevelMonotone | security-risk/src/ProjectAnalysis.js:69-74 | A higher risk never yields a lower band. |
| ProjectAnalysis.BandsDistinct | security-risk/src/ProjectAnalysis.js:70-73 | The four bands have pairwise different texts and colours. |
| ProjectAnalysis.Submit | security-risk/src/ProjectAnalysis.js:99-106 | A blank input is a no-op and issues no request. Otherwise the trimmed user message is appended with id max+1 (or 1), the input is cleared, and the request `{ idagente: "0", msg }` is issued before any reply. |
| ProjectAnalysis.AgentText | security-risk/src/ProjectAnalysis.js:125-142 | On success the text is `response`, or the fixed fallback when that is missing or empty. On any failure it is `Error: No se pudo conectar con el agente. (<error message>)`. |
| ProjectAnalysis.Settle | security-risk/src/ProjectAnalysis.js:132-142 | Whatever the outcome, exactly one agent message with id user id + 1 is appended after the messages shown. |
| ProjectAnalysis.SendMessage | security-risk/src/ProjectAnalysis.js:98-143 | A completed send grows the transcript by exactly two messages, the user message first and then the agent message. Earlier messages are kept. |
| ProjectAnalysis.SendKeepsIdsUnique | security-risk/src/ProjectAnalysis.js:102-142 | A completed send keeps message ids unique. |
| ProjectAnalysis.SubmitKeepsIdsUnique | security-risk/src/ProjectAnalysis.js:99-106 | The synchronous half of a send keeps ids unique, and the new user message carries the largest id shown. |
| ProjectAnalysis.SettleKeepsIdsUnique | security-risk/src/ProjectAnalysis.js:134-142 | Appending the agent message, one past every id shown, keeps ids unique. |
| ProjectAnalysis.SuccessShowsResponse | security-risk/src/ProjectAnalysis.js:132-137 | A 2xx JSON reply with non-empty `response` shows exactly that text after the user's message. |
| ProjectAnalysis.FailureKeepsUserMessage | security-risk/src/ProjectAnalysis.js:139-142 | On any failure the user message stays, followed by an agent message starting with the connection error. |
| ProjectAnalysis.ServerFailureText | security-risk/src/ProjectAnalysis.js:125-129 | A non-2xx reply shows `Error: No se pudo conectar con el agente. (Error del servidor: ...`. |
| ProjectAnalysis.ServerFailureAgentText | security-risk/src/ProjectAnalysis.js:125-143 | For any non-2xx reply the agent message text begins with the connection error followed by ` (Error del servidor: `. |
| UserManager.MapUser | security-risk/src/UserManagerPanel.js:89-95 | The id, email and date are carried over. A known role code gives its role name and an unknown one gives `rol.rol`. A user is active if and only if `estado` is `"A"`. |
| UserManager.MapUserRoundTrip | security-risk/src/UserManagerPanel.js:89-95 | A row with a known role, encoded as the backend would send it, maps back to the same row. |
| UserManager.LoadUsersRoundTrip | security-risk/src/UserManagerPanel.js:70-103 | A successful reply that lists a table's rows, encoded as the backend sends them, shows exactly that table with no error and no spinner. |
| UserManager.MapUsers | security-risk/src/UserManagerPanel.js:89 | The table has one mapped row per backend record, in order. |
| UserManager.LoadUsers | security-risk/src/UserManagerPanel.js:70-103 | On success the table is the mapped list and there is no error. On failure the table is kept and the error is shown. The spinner ends off. |
| UserManager.ToggleRequest | security-risk/src/UserManagerPanel.js:117 | The toggle sends the status code opposite to the current status. |
| UserManager.FlipStatus | security-risk/src/UserManagerPanel.js:139-141 | Length and order are kept. Only `isActive` can change, and it flips exactly for users with the given id. |
| UserManager.FlipStatusInvolution | security-risk/src/UserManagerPanel.js:139-141 | Flipping the same user twice restores the list. |
| UserManager.ToggleUserStatus | security-risk/src/UserManagerPanel.js:114-148 | The request is always sent. An accepted toggle flips the user and clears the error. A failed one keeps the list and records the error. |
| UserManager.ToggleTwiceRestores | security-risk/src/UserManagerPanel.js:114-148 | Two accepted toggles of one user, the second sent with the status the first produced, restore the table. |
| UserManager.RemoveUser | security-risk/src/UserManagerPanel.js:176 | A user remains if and only if it was in the list and does not carry the id. |
| UserManager.RemoveUserCount | security-risk/src/UserManagerPanel.js:176 | The list shrinks by exactly the number of users carrying the id. |
| UserManager.RemoveUserConcat | security-risk/src/UserManagerPanel.js:176 | Deleting from a concatenation deletes from each part, so the remaining users keep their order. |
| UserManager.RemoveAbsentUser | security-risk/src/UserManagerPanel.js:176 | Deleting an id that nobody carries leaves the list unchanged. |
| UserManager.RemoveUserIdempotent | security-risk/src/UserManagerPanel.js:176 | Deleting the same id a second time changes nothing. |
| UserManager.DeleteUserAction | security-risk/src/UserManagerPanel.js:150-183 | The error is cleared first. A declined confirmation sends nothing and keeps the list. An accepted delete removes exactly that id. A failed one keeps the list and records the error. |
| AssignRoles.Seed | security-risk/src/AssignRolesPanel.js:41 | Each row keeps its account's fields, and its picked role equals its role. |
| AssignRoles.ChangeRole | security-risk/src/AssignRolesPanel.js:56-60 | Length and order are kept, and `id`, `email` and `role` never change. Matching rows get the new picked role and all other rows are untouched. |
| AssignRoles.ChangeRoleIdempotent | security-risk/src/AssignRolesPanel.js:56-60 | Applying the same (id, role) twice equals applying it once. |
| AssignRoles.ChangeRoleAbsent | security-risk/src/AssignRolesPanel.js:56-60 | A change for an id not in the table leaves it unchanged. |
| AssignRoles.ChangeRoleCommutes | security-risk/src/AssignRolesPanel.js:56-60 | Changes for two different ids give the same table in either order. |
| CreateProject.NameBlur | security-risk/src/crear_project.js:49-54 | Blur always ends editing. A blank name becomes `Nombre del Proyecto` and any other name is kept as typed. |
| CreateProject.BlurNameNotBlank | security-risk/src/crear_project.js:49-54 | After a blur the name is never blank. |
| CreateProject.BlurIdempotent | security-risk/src/crear_project.js:49-54 | A second blur changes nothing. |
| CreateProject.Upload | security-risk/src/crear_project.js:56-60 | Exactly one file is appended. Its id is max+1 (1 when empty) and its name is `nuevo_documento_<id>.pdf`. Earlier files and the name are unchanged. |
| CreateProject.UploadKeepsIdsDistinct | security-risk/src/crear_project.js:58-59 | File ids stay pairwise distinct after an upload. |
| CreateProject.UploadNameCarriesId | security-risk/src/crear_project.js:59 | The upload name holds the id's decimal text between the fixed prefix and the suffix. |
| CreateProject.UploadNameInjective | security-risk/src/crear_project.js:59 | Different ids give different upload names. |
| Login.Enter | security-risk/src/Login.js:33-38 | Entering the login view removes `userToken`, `userRole` and `adminRole` and keeps every other key. |
| Login.DemoRole | security-risk/src/Login.js:45-53 | Only standard/pass and professional/pass are accepted, granting `standard` and `professional`. No account gets `consultant`. |
| Login.StoredName | security-risk/src/Login.js:47-49 | The name looked up through code `"1"`/`"2"` is the role's own name. |
| Login.TraditionalLogin | security-risk/src/Login.js:40-57 | On success the view stores `userToken = fake-<role>-token` and `userRole = role`, clears the error and goes to `/`. On failure the store is untouched, the error is `Usuario o contraseña incorrectos.`, and there is no navigation. |
| Login.GrantedSession | security-risk/src/Login.js:76-84 | A session is granted exactly when the token is non-empty and the role code is mapped. It stores that token and the mapped name. |
| Login.GoogleLogin | security-risk/src/Login.js:59-94 | The view navigates to `/` exactly when the reply is a 2xx JSON reply granting a session, and then stores that session. Every other outcome leaves the store untouched and shows `No se pudo iniciar sesión con Google: ` followed by the reply reader's error, or by the invalid-session text when a readable reply grants no session. |
| Login.UnknownRoleRefused | security-risk/src/Login.js:80-84 | A token with an unmapped role code is refused with the invalid-session message. |
| Login.GoogleError | security-risk/src/Login.js:96-99 | A failed Google pop-up only shows its error. |
| LoginAdmin.Enter | security-risk/src/LoginAdmin.js:21-25 | Entering the admin login view removes only `adminRole`. |
| LoginAdmin.AdminLogin | security-risk/src/LoginAdmin.js:27-41 | Login succeeds if and only if the credentials are admin/adminpass. Success clears any previous error, stores `adminRole = full_access` and goes to `/user-manager`. Failure stores nothing and shows `Credenciales de administrador incorrectas.`. |
| LoginAdmin.AdminRoleOnlyAfterLogin | security-risk/src/LoginAdmin.js:21-41 | After arriving at the view and trying to log in, `adminRole` is held if and only if the credentials were admin/adminpass, and then it is `full_access`. |
| LoginAdmin.AdminLoginLogout | security-risk/src/LoginAdmin.js:21-41 | Logging in as admin and then logging out leaves the store exactly as arriving at the login view left it. |
| Flows.ProfessionalDemoSeesEverything | security-risk/src/Login.js:48-56 | After the professional demo login, the landing screen stays and shows all gated features and four projects. |
| Flows.StandardDemoSeesNothingExtra | security-risk/src/Login.js:46-56 | After the standard demo login, all gated features are off and there are no projects. |
| Flows.GoogleRoleGatesFeatures | security-risk/src/Login.js:79-89 | After a Google login, the gated features are on if and only if the backend's role code is `"2"`. |
| Flows.LoginEntryForcesRedirect | security-risk/src/Login.js:33-38 | After the login view is entered, the landing screen falls back to `guest` and redirects to `/login`. |
| Flows.LogoutForcesRedirect | security-risk/src/Home.js:118-121 | After logout the landing screen redirects to `/login`, while the token is still stored. |

## Left out

- Rendering: all markup, styling, tabs, sliders, images and icons are presentation.
- Handlers that only show an alert, navigate or set a presentation value are left out:
  - export, add-simulation and the landing screen's upload button;
  - save-analysis and PDF export;
  - tab and slider changes;
  - the name edit and typing handlers;
  - the "save changes" buttons;
  - plain navigation buttons.
- The network: `fetch` is never called. Its outcome is an input, and request bodies appear as data only where the handler's logic builds them (agent chat, status update, delete).
- The Google credential sent to the token endpoint is not part of the model; only the reply is.
- Alerts, `console` logging and `window.confirm`: confirmation is a boolean input.
- The router wiring in `App.js`: it has no logic.
- The signed-URL endpoint in `server.js`: it wraps a cloud storage library whose behaviour is not visible.
- Overlapping sends: each handler is one atomic step. Two sends interleaving before a reply arrives, React's stale closures and batched state updates are not modelled. The id uniqueness results hold only for sequential sends.
- UserManager.LoadUsers: only the settled state is modelled. The spinner and cleared error shown while the request is in flight are not.
- Hard-coded demo data: the simulations, the seed accounts of the role table, the initial chat messages (both chat screens start from fixed demo messages, whatever the role) and the initial attached files are not modelled. The operations are stated for any starting list of integer ids.
- Malformed JSON structure: a reply without `users`, or a user without `rol`, raises a JavaScript `TypeError` whose text depends on the engine. The payload is assumed to have these fields. A body that is not JSON at all is modelled.
- A JSON body of `null` is not modelled: reading `.message`, `.response`, `.token` or `.users` of it throws a `TypeError` whose text depends on the engine, so such a reply would show that text instead of the status error or the payload. `Http.Body` has only the non-JSON and JSON-object cases.
- JavaScript object lookup also finds inherited properties, for a key such as `"toString"`. The code tables are modelled as plain finite tables.
- Values that are not strings in JSON fields are not modelled. Examples are a numeric `role` or a `response` of another type.
- Ids.Next: ids are unbounded integers. JavaScript ids are doubles, so from 2^53 on the largest id plus one equals the largest id and a duplicate would appear, and spreading a list longer than the engine's argument limit into `Math.max` throws. Ids are assumed to be safe integers (magnitude below 2^53) on lists of ordinary length.
- Chat.NextId: the same safe-integer assumption as `Ids.Next`, and likewise for the agent message's id, one past the user message's.
- CreateProject.Upload: the same safe-integer assumption as `Ids.Next`.
- CreateProject.UploadName: the id is printed in plain decimal. JavaScript prints magnitudes from 10^21 on in exponent form (`1e+21`), which the safe-integer assumption above excludes.
- ProjectAnalysis.GetRiskLevel: the risk percentage is an integer. Fractional and `NaN` percentages, which JavaScript numbers allow, are not covered.
- Text.Trim: the white-space set is fixed to ECMAScript's WhiteSpace and LineTerminator code points of current Unicode. Changes in later Unicode versions are not tracked.

=== FILE: assign_roles.dfy ===
/** The admin role assignment table: each row shows a user's role and the
    role picked for it, and picking a role changes only that user's row. */
module AssignRoles {

  /** A user as the table receives it. */
  datatype Account = Account(id: int, email: string, role: string)

  /** A table row: the account plus the role currently picked for it. */
  datatype Row = Row(id: int, email: string, role: string, currentRole: string)

  /** The table at mount: every row's picked role is its own role. */
  function Seed(accounts: seq<Account>): (rows: seq<Row>)
    ensures |rows| == |accounts|
    ensures forall i :: 0 <= i < |accounts| ==>
      && rows[i].id == accounts[i].id
      && rows[i].email == accounts[i].email
      && rows[i].role == accounts[i].role
      && rows[i].currentRole == rows[i].role
  {
    seq(|accounts|, i requires 0 <= i < |accounts| =>
      Row(accounts[i].id, accounts[i].email, accounts[i].role, accounts[i].role))
  }

  /** `handleRoleChange(userId, newRole)`: the rows carrying `userId` get
      `newRole` as their picked role; nothing else changes. */
  function ChangeRole(rows: seq<Row>, userId: int, newRole: string): (r: seq<Row>)
    ensures |r| == |rows|
    ensures forall i :: 0 <= i < |rows| ==>
      && r[i].id == rows[i].id
      && r[i].email == rows[i].email
      && r[i].role == rows[i].role
      && (rows[i].id == userId ==> r[i].currentRole == newRole)
      && (rows[i].id != userId ==> r[i] == rows[i])
  {
    seq(|rows|, i requires 0 <= i < |rows| =>
      if rows[i].id == userId then rows[i].(currentRole := newRole) else rows[i])
  }

  /** Picking the same role for the same user twice is the same as once. */
  lemma ChangeRoleIdempotent(rows: seq<Row>, userId: int, newRole: string)
    ensures ChangeRole(ChangeRole(rows, userId, newRole), userId, newRole) == ChangeRole(rows, userId, newRole)
  {
    var once := ChangeRole(rows, userId, newRole);
    assert forall i :: 0 <= i < |rows| ==> ChangeRole(once, userId, newRole)[i] == once[i];
  }

  /** Picking a role for an id that is not in the table changes nothing. */
  lemma ChangeRoleAbsent(rows: seq<Row>, userId: int, newRole: string)
    requires forall i :: 0 <= i < |rows| ==> rows[i].id != userId
    ensures ChangeRole(rows, userId, newRole) == rows
  {
    assert forall i :: 0 <= i < |rows| ==> ChangeRole(rows, userId, newRole)[i] == rows[i];
  }

  /** Picks for two different users do not interfere: either order gives the
      same table. */
  lemma ChangeRoleCommutes(rows: seq<Row>, a: int, ra: string, b: int, rb: string)
    requires a != b
    ensures ChangeRole(ChangeRole(rows, a, ra), b, rb) == ChangeRole(ChangeRole(rows, b, rb), a, ra)
  {
    var x := ChangeRole(ChangeRole(rows, a, ra), b, rb);
    var y := ChangeRole(ChangeRole(rows, b, rb), a, ra);
    assert forall i :: 0 <= i < |rows| ==> x[i] == y[i];
  }
}

=== FILE: chat.dfy ===
/** The chat transcript both chat screens keep: an ordered list of messages,
    each with an id unique within the transcript, plus the text box. */
module Chat {
  import Ids

  datatype Sender = User | Agent

  /** A message as the screens store it: its id, who sent it and its text. */
  datatype Message = Message(id: int, sender: Sender, text: string)

  /** The text box and the messages shown above it, in display order. */
  datatype ChatView = ChatView(messages: seq<Message>, input: string)

  /** The ids of a transcript, in order. */
  function IdsOf(ms: seq<Message>): seq<int> {
    Ids.IdsOf(ms, (m: Message) => m.id)
  }

  /** The id a new message gets: one more than the largest id in the
      transcript, or 1 for an empty transcript. */
  function NextId(ms: seq<Message>): (n: int)
    ensures forall i :: 0 <= i < |ms| ==> ms[i].id < n
    ensures |ms| == 0 ==> n == 1
    ensures |ms| > 0 ==> exists i :: 0 <= i < |ms| && ms[i].id == n - 1
  {
    var ids := IdsOf(ms);
    var n := Ids.Next(ids);
    assert |ms| > 0 ==> n - 1 in ids;
    n
  }

  /** No two messages share an id. */
  predicate UniqueIds(ms: seq<Message>) {
    Ids.Distinct(IdsOf(ms))
  }

  /** Adding a message whose id exceeds every id in use keeps ids unique. */
  lemma AppendFreshKeepsUnique(ms: seq<Message>, m: Message)
    requires UniqueIds(ms)
    requires forall i :: 0 <= i < |ms| ==> ms[i].id < m.id
    ensures UniqueIds(ms + [m])
  {
    var ids' := IdsOf(ms + [m]);
    forall i, j | 0 <= i < j < |ids'| ensures ids'[i] != ids'[j] {
      assert ids'[i] == ms[i].id;
      if j < |ms| { assert ids'[j] == ms[j].id; }
    }
  }
}

=== FILE: create_project.dfy ===
/** The project creation form: the editable project name, which falls back
    to its default when left blank, and the list of attached documents. */
module CreateProject {
  import Text
  import Ids

  const DefaultName := "Nombre del Proyecto"

  /** An attached document. */
  datatype Attachment = Attachment(id: int, name: string)

  /** The form: the project name, whether it is being edited, and the files. */
  datatype Form = Form(name: string, editing: bool, files: seq<Attachment>)

  /** `handleProjectNameBlur`: editing ends, and a name that trims to empty
      goes back to the default; any other name is kept as typed. */
  function NameBlur(f: Form): (r: Form)
    ensures !r.editing
    ensures r.files == f.files
    ensures Text.Blank(f.name) ==> r.name == DefaultName
    ensures !Text.Blank(f.name) ==> r.name == f.name
  {
    var name := if Text.Trim(f.name) == [] then DefaultName else f.name;
    f.(editing := false, name := name)
  }

  /** After a blur the name is never blank. */
  lemma BlurNameNotBlank(f: Form)
    ensures !Text.Blank(NameBlur(f).name)
  {
    if Text.Blank(f.name) {
      assert !Text.IsSpace(DefaultName[0]);
    }
  }

  /** A second blur changes nothing. */
  lemma BlurIdempotent(f: Form)
    ensures NameBlur(NameBlur(f)) == NameBlur(f)
  {
    BlurNameNotBlank(f);
  }

  /** The ids of the attached files, in order. */
  function FileIds(files: seq<Attachment>): seq<int> {
    Ids.IdsOf(files, (f: Attachment) => f.id)
  }

  const UploadPrefix := "nuevo_documento_"
  const UploadSuffix := ".pdf"

  /** The name an uploaded file gets: the fixed prefix, the id in decimal,
      and the `.pdf` extension. */
  function UploadName(id: int): string {
    UploadPrefix + Text.IntToString(id) + UploadSuffix
  }

  /** The id can be read back out of an upload name. */
  lemma UploadNameCarriesId(id: int)
    ensures var n := UploadName(id);
            && |UploadPrefix| + |UploadSuffix| <= |n|
            && n[|UploadPrefix|..|n| - |UploadSuffix|] == Text.IntToString(id)
  {
  }

  /** Different ids give different upload names. */
  lemma UploadNameInjective(i: int, j: int)
    requires UploadName(i) == UploadName(j)
    ensures i == j
  {
    UploadNameCarriesId(i);
    UploadNameCarriesId(j);
    Text.IntToStringInjective(i, j);
  }

  /** `handleUploadClick`: one file is appended whose id is one past every id
      in use (1 for an empty list) and whose name carries that id. */
  function Upload(f: Form): (r: Form)
    ensures r.name == f.name && r.editing == f.editing
    ensures |r.files| == |f.files| + 1 && r.files[..|f.files|] == f.files
    ensures var added := r.files[|f.files|];
            && (forall i :: 0 <= i < |f.files| ==> f.files[i].id < added.id)
            && (|f.files| == 0 ==> added.id == 1)
            && (|f.files| > 0 ==> exists i :: 0 <= i < |f.files| && f.files[i].id == added.id - 1)
            && added.name == UploadName(added.id)
  {
    var ids := FileIds(f.files);
    var id := Ids.Next(ids);
    assert |f.files| > 0 ==> id - 1 in ids;
    f.(files := f.files + [Attachment(id, UploadName(id))])
  }

  /** Uploading keeps the file ids pairwise distinct. */
  lemma UploadKeepsIdsDistinct(f: Form)
    requires Ids.Distinct(FileIds(f.files))
    ensures Ids.Distinct(FileIds(Upload(f).files))
  {
    var ids := FileIds(f.files);
    Ids.NextKeepsDistinct(ids);
    assert FileIds(Upload(f).files) == ids + [Ids.Next(ids)];
  }
}

=== FILE: flows.dfy ===
/** How the screens meet through the session store: what the landing screen
    shows after each way in or out. */
module Flows {
  import opened Options
  import opened Http
  import opened Roles
  import opened Session
  import Login
  import Home

  /** After the professional demo account signs in, the landing screen stays
      put and shows every role-gated feature and the four projects. */
  lemma ProfessionalDemoSeesEverything(store: Store, error: string)
    ensures var step := Login.TraditionalLogin(Login.Enter(store), error, "professional", Login.DemoPassword);
            var entry := Home.Enter(step.store);
            && entry.nav == Stay
            && entry.role == "professional"
            && Home.AllOn(Home.FlagsFor(entry.role))
            && |Home.ProjectsFor(entry.role)| == 4
  {
  }

  /** After the standard demo account signs in, every role-gated feature is
      off and the project list is empty. */
  lemma StandardDemoSeesNothingExtra(store: Store, error: string)
    ensures var step := Login.TraditionalLogin(Login.Enter(store), error, "standard", Login.DemoPassword);
            var entry := Home.Enter(step.store);
            && entry.nav == Stay
            && entry.role == "standard"
            && Home.AllOff(Home.FlagsFor(entry.role))
            && Home.ProjectsFor(entry.role) == []
  {
  }

  /** After a Google sign-in the landing screen shows the gated features
      exactly when the backend's role code is `"2"`. */
  lemma GoogleRoleGatesFeatures(store: Store, error: string, reply: Reply<Login.GoogleAuth>)
    requires Login.GoogleLogin(store, error, reply).nav == Navigate("/")
    ensures var step := Login.GoogleLogin(store, error, reply);
            var entry := Home.Enter(step.store);
            && entry.nav == Stay
            && (Home.AllOn(Home.FlagsFor(entry.role)) <==> reply.body.payload.role == Some("2"))
  {
    var auth := reply.body.payload;
    var s := Login.GrantedSession(auth).value;
    assert s.1 != [];
  }

  /** Arriving at the login view always makes the landing screen redirect
      back to it. */
  lemma LoginEntryForcesRedirect(store: Store)
    ensures Home.Enter(Login.Enter(store)).nav == Navigate("/login")
    ensures Home.Enter(Login.Enter(store)).role == Home.Guest
  {
  }

  /** After logging out the landing screen redirects to the login view,
      although the token is still stored. */
  lemma LogoutForcesRedirect(store: Store)
    ensures var after := Home.Logout(store).0;
            && Home.Enter(after).nav == Navigate("/login")
            && (UserToken in store ==> UserToken in after && after[UserToken] == store[UserToken])
  {
  }
}

=== FILE: home.dfy ===
/** The landing screen: the stored role decides the feature flags and the
    project list, a missing role sends the user to the login view, the chat
    box appends the user's messages, and the projects accordion stays open on
    desktop. */
module Home {
  import Text
  import Roles
  import opened Chat
  import opened Session

  const Guest := "guest"
  const Professional := Roles.Name(Roles.Professional)

  /** What the screen starts from: the role it renders with and whether its
      mount effect redirects. */
  datatype Entry = Entry(role: string, nav: Nav)

  /** Mounting the screen: the stored role when it is present and non-empty,
      `guest` otherwise, and then a redirect to `/login`. */
  function Enter(store: Store): (e: Entry)
    ensures e.nav == Navigate("/login") <==> !HasValue(store, UserRole)
    ensures e.nav == Stay <==> HasValue(store, UserRole)
    ensures HasValue(store, UserRole) ==> e.role == store[UserRole]
    ensures !HasValue(store, UserRole) ==> e.role == Guest
  {
    if HasValue(store, UserRole) then Entry(store[UserRole], Stay)
    else Entry(Guest, Navigate("/login"))
  }

  /** The four role-gated switches of the screen. */
  datatype Flags = Flags(
    showCreateProjectButton: bool,
    showSavedProjects: bool,
    showHotspotColumn: bool,
    enableAddSimulationButton: bool)

  predicate AllOn(f: Flags) {
    f.showCreateProjectButton && f.showSavedProjects && f.showHotspotColumn && f.enableAddSimulationButton
  }

  predicate AllOff(f: Flags) {
    !f.showCreateProjectButton && !f.showSavedProjects && !f.showHotspotColumn && !f.enableAddSimulationButton
  }

  /** The flags for a role: all on for a professional, all off otherwise. */
  function FlagsFor(role: string): (f: Flags)
    ensures AllOn(f) <==> role == Professional
    ensures AllOff(f) <==> role != Professional
  {
    var on := role == Professional;
    Flags(on, on, on, on)
  }

  /** The saved projects a professional sees. */
  const SavedProjects: seq<string> := [
    "Auditoría de Seguridad de Red",
    "Evaluación de Riesgos de Instalaciones",
    "Evaluación de Protección de Datos",
    "Revisión de Seguridad de la Cadena de Suministro"
  ]

  /** The project list: the four saved projects for a professional, nothing
      for anyone else. */
  function ProjectsFor(role: string): (ps: seq<string>)
    ensures |ps| == 4 <==> role == Professional
    ensures |ps| == 0 <==> role != Professional
    ensures forall i, j :: 0 <= i < j < |ps| ==> ps[i] != ps[j]
  {
    if FlagsFor(role).showSavedProjects then SavedProjects else []
  }

  /** `handleSendMessage`: a blank input does nothing; otherwise the trimmed
      text is appended as a user message with a fresh id and the box is
      cleared. */
  function SendMessage(v: ChatView): (r: ChatView)
    ensures Text.Blank(v.input) ==> r == v
    ensures !Text.Blank(v.input) ==>
      && |r.messages| == |v.messages| + 1
      && r.messages[..|v.messages|] == v.messages
      && r.messages[|v.messages|].sender == User
      && r.messages[|v.messages|].text == Text.Trim(v.input)
      && r.messages[|v.messages|].text != []
      && (forall i :: 0 <= i < |v.messages| ==> v.messages[i].id < r.messages[|v.messages|].id)
      && (|v.messages| == 0 ==> r.messages[0].id == 1)
      && (|v.messages| > 0 ==> exists i :: 0 <= i < |v.messages| && v.messages[i].id == r.messages[|v.messages|].id - 1)
      && r.input == []
  {
    var text := Text.Trim(v.input);
    if text == [] then v
    else ChatView(v.messages + [Message(NextId(v.messages), User, text)], [])
  }

  /** Sending never makes two messages share an id. */
  lemma SendKeepsIdsUnique(v: ChatView)
    requires UniqueIds(v.messages)
    ensures UniqueIds(SendMessage(v).messages)
  {
    var text := Text.Trim(v.input);
    if text != [] {
      AppendFreshKeepsUnique(v.messages, Message(NextId(v.messages), User, text));
    }
  }

  /** `handleLogout`: only `userRole` is removed (`userToken` stays), then
      the login view. */
  function Logout(store: Store): (r: (Store, Nav))
    ensures UserRole !in r.0
    ensures forall k :: k in store && k != UserRole ==> k in r.0 && r.0[k] == store[k]
    ensures r.0.Keys == store.Keys - {UserRole}
    ensures r.1 == Navigate("/login")
  {
    (RemoveKeys(store, {UserRole}), Navigate("/login"))
  }

  /** The projects accordion: the current layout and whether it is open. */
  datatype Accordion = Accordion(isDesktop: bool, expanded: bool)

  /** A user's request to open or close it, or the layout changing. */
  datatype AccordionEvent = Requested(open: bool) | LayoutChanged(desktop: bool)

  /** The state at mount: open exactly on desktop. */
  function InitialAccordion(isDesktop: bool): (a: Accordion)
    ensures a.isDesktop == isDesktop
    ensures a.expanded <==> isDesktop
  {
    Accordion(isDesktop, isDesktop)
  }

  /** `handleProjectsAccordionChange`, and the effect that re-opens the
      accordion exactly on desktop each time the layout actually changes; a
      report of the layout already in force runs no effect. */
  function AccordionStep(a: Accordion, e: AccordionEvent): (r: Accordion)
    ensures e.Requested? ==> r.isDesktop == a.isDesktop
    ensures e.Requested? && a.isDesktop ==> r.expanded
    ensures e.Requested? && !a.isDesktop ==> r.expanded == e.open
    ensures e.LayoutChanged? ==> r.isDesktop == e.desktop
    ensures e.LayoutChanged? && e.desktop == a.isDesktop ==> r.expanded == a.expanded
    ensures e.LayoutChanged? && e.desktop != a.isDesktop ==> (r.expanded <==> e.desktop)
  {
    match e
    case Requested(open) => if a.isDesktop then a.(expanded := true) else a.(expanded := open)
    case LayoutChanged(desktop) => if desktop == a.isDesktop then a else Accordion(desktop, desktop)
  }

  /** The state after a run of events. */
  function AccordionRun(a: Accordion, events: seq<AccordionEvent>): Accordion
    decreases |events|
  {
    if |events| == 0 then a else AccordionRun(AccordionStep(a, events[0]), events[1..])
  }

  /** On desktop the accordion is open in every state the screen can reach. */
  lemma {:induction false} DesktopAlwaysExpanded(isDesktop: bool, events: seq<AccordionEvent>)
    ensures var a := AccordionRun(InitialAccordion(isDesktop), events);
            a.isDesktop ==> a.expanded
  {
    RunKeepsDesktopExpanded(InitialAccordion(isDesktop), events);
  }

  lemma {:induction false} RunKeepsDesktopExpanded(a: Accordion, events: seq<AccordionEvent>)
    requires a.isDesktop ==> a.expanded
    ensures var r := AccordionRun(a, events); r.isDesktop ==> r.expanded
    decreases |events|
  {
    if |events| > 0 {
      RunKeepsDesktopExpanded(AccordionStep(a, events[0]), events[1..]);
    }
  }
}

=== FILE: http.dfy ===
/** What a `fetch` call settles to, taken as an input, and how each handler's
    `try`/`catch` turns it into a value or an error message. */
module Http {
  import Text

  import opened Options

  /** The value a handler's `try` block reaches, or the `message` of the
      error its `catch` receives. */
  datatype Result<T> = Ok(value: T) | Err(message: string)

  /** A response body: text the JSON parser rejects (carrying the parser's
      error message), or a JSON object with an optional `message` field and
      the fields the handler reads. */
  datatype Body<T> = NotJson(parseError: string) | Json(message: Option<string>, payload: T)

  /** `fetch` rejected (the network error's message), or a response arrived. */
  datatype Reply<T> =
    | NetworkError(message: string)
    | Response(status: nat, statusText: string, body: Body<T>)

  /** `response.ok`: the status is in the range 200-299. */
  predicate IsOk(status: nat) {
    200 <= status <= 299
  }

  const UnknownError := "Error desconocido"

  /** The detail an error message carries: the body's non-empty `message`;
      when the body is not JSON, the non-empty status text instead; otherwise
      the fixed unknown-error text. */
  function ErrorDetail<T>(statusText: string, body: Body<T>): (d: string)
    ensures d != []
    ensures body.Json? && body.message.Some? && body.message.value != [] ==> d == body.message.value
    ensures body.NotJson? && statusText != [] ==> d == statusText
    ensures body.Json? && (body.message.None? || body.message.value == []) ==> d == UnknownError
    ensures body.NotJson? && statusText == [] ==> d == UnknownError
  {
    var message := if body.NotJson? then Some(statusText) else body.message;
    if message.Some? && message.value != [] then message.value else UnknownError
  }

  /** The error a handler throws for a non-2xx response:
      the prefix, a colon, the status in decimal, a dash and the detail. */
  function StatusError<T>(prefix: string, status: nat, statusText: string, body: Body<T>): (e: string)
    ensures Text.StartsWith(e, prefix + ": ")
    ensures Text.EndsWith(e, " - " + ErrorDetail(statusText, body))
    ensures var digits := Text.NatToString(status);
            && |e| == |prefix| + 2 + |digits| + 3 + |ErrorDetail(statusText, body)|
            && e[|prefix| + 2..|prefix| + 2 + |digits|] == digits
  {
    var head, digits, tail := prefix + ": ", Text.NatToString(status), " - " + ErrorDetail(statusText, body);
    var e := head + digits + tail;
    assert e[..|head|] == head;
    assert e[|head|..|head| + |digits|] == digits;
    assert e[|e| - |tail|..] == tail;
    e
  }

  /** A handler that checks `response.ok` and then reads the JSON body. */
  function ReadJson<T>(prefix: string, reply: Reply<T>): (r: Result<T>)
    ensures r.Ok? <==> reply.Response? && IsOk(reply.status) && reply.body.Json?
    ensures r.Ok? ==> r.value == reply.body.payload
    ensures reply.NetworkError? ==> r == Err(reply.message)
    ensures reply.Response? && !IsOk(reply.status) ==>
              r == Err(StatusError(prefix, reply.status, reply.statusText, reply.body))
    ensures reply.Response? && IsOk(reply.status) && reply.body.NotJson? ==> r == Err(reply.body.parseError)
  {
    match reply
    case NetworkError(m) => Err(m)
    case Response(status, statusText, body) =>
      if !IsOk(status) then Err(StatusError(prefix, status, statusText, body))
      else if body.NotJson? then Err(body.parseError)
      else Ok(body.payload)
  }

  /** A handler that checks `response.ok` and then reads the body only when
      the status is not 204 (No Content), discarding it. */
  function ReadDone<T>(prefix: string, reply: Reply<T>): (r: Result<()>)
    ensures r.Ok? <==> reply.Response? && IsOk(reply.status) && (reply.status == 204 || reply.body.Json?)
    ensures reply.NetworkError? ==> r == Err(reply.message)
    ensures reply.Response? && !IsOk(reply.status) ==>
              r == Err(StatusError(prefix, reply.status, reply.statusText, reply.body))
    ensures reply.Response? && IsOk(reply.status) && reply.status != 204 && reply.body.NotJson? ==>
              r == Err(reply.body.parseError)
  {
    match reply
    case NetworkError(m) => Err(m)
    case Response(status, statusText, body) =>
      if !IsOk(status) then Err(StatusError(prefix, status, statusText, body))
      else if status != 204 && body.NotJson? then Err(body.parseError)
      else Ok(())
  }

  /** Apart from a 204 reply, which `ReadDone` accepts without a body, the
      two readers accept and refuse the same replies with the same error. */
  lemma ReadDoneAgreesWithReadJson<T>(prefix: string, reply: Reply<T>)
    requires !(reply.Response? && reply.status == 204)
    ensures ReadDone(prefix, reply).Ok? <==> ReadJson(prefix, reply).Ok?
    ensures ReadJson(prefix, reply).Err? ==> ReadDone(prefix, reply) == Err(ReadJson(prefix, reply).message)
  {
  }

  /** The status code printed in an error message can be read back from it. */
  lemma StatusErrorNamesStatus<T>(prefix: string, status: nat, statusText: string, body: Body<T>)
    ensures var e := StatusError(prefix, status, statusText, body);
            var digits := Text.NatToString(status);
            && |prefix| + 2 + |digits| <= |e|
            && e[|prefix| + 2..|prefix| + 2 + |digits|] == digits
            && Text.ParseNat(digits) == status
  {
    Text.ParseNatToString(status);
  }
}

=== FILE: ids.dfy ===
/** Fresh-id allocation as every list screen does it: one more than the
    largest id in use, or 1 for an empty list. */
module Ids {

  /** The ids of a list of records, in order, for any kind of record. */
  function IdsOf<T>(records: seq<T>, id: T -> int): (ids: seq<int>)
    ensures |ids| == |records|
    ensures forall i :: 0 <= i < |records| ==> ids[i] == id(records[i])
  {
    seq(|records|, i requires 0 <= i < |records| => id(records[i]))
  }

  /** The largest id of a non-empty list. */
  function Max(ids: seq<int>): (m: int)
    requires |ids| > 0
    ensures m in ids
    ensures forall i :: 0 <= i < |ids| ==> ids[i] <= m
  {
    if |ids| == 1 then ids[0]
    else
      var rest := Max(ids[..|ids| - 1]);
      if rest < ids[|ids| - 1] then ids[|ids| - 1] else rest
  }

  /** The id the next record gets: one past every id in use, and exactly the
      largest one plus one (1 when nothing is in use). */
  function Next(ids: seq<int>): (n: int)
    ensures forall i :: 0 <= i < |ids| ==> ids[i] < n
    ensures |ids| == 0 ==> n == 1
    ensures |ids| > 0 ==> n - 1 in ids
  {
    if |ids| > 0 then Max(ids) + 1 else 1
  }

  /** No id occurs twice. */
  predicate Distinct(ids: seq<int>) {
    forall i, j :: 0 <= i < j < |ids| ==> ids[i] != ids[j]
  }

  /** Appending the allocated id keeps the ids pairwise distinct. */
  lemma NextKeepsDistinct(ids: seq<int>)
    requires Distinct(ids)
    ensures Distinct(ids + [Next(ids)])
  {
    var ids' := ids + [Next(ids)];
    forall i, j | 0 <= i < j < |ids'| ensures ids'[i] != ids'[j] {
      if j == |ids| {
        assert ids'[i] == ids[i];
      } else {
        assert ids'[i] == ids[i] && ids'[j] == ids[j];
      }
    }
  }
}

=== FILE: login.dfy ===
/** The user login view: arriving clears the session, the demo form accepts
    two fixed accounts, and Google sign-in trades the Google credential for a
    backend token and role code. */
module Login {
  import Text
  import opened Options
  import opened Http
  import opened Roles
  import opened Session

  const BadCredentials := "Usuario o contraseña incorrectos."
  const GooglePrefix := "No se pudo iniciar sesión con Google: "
  const BackendAuthError := "Fallo de autenticación con el backend"
  const InvalidSession := "El backend no proporcionó un token o rol válido/mapeable."
  const GooglePopupError := "No se pudo iniciar sesión con Google. Inténtalo de nuevo."
  const DemoPassword := "pass"

  /** Arriving at the view: `userToken`, `userRole` and `adminRole` are
      removed and every other entry is kept. */
  function Enter(store: Store): (r: Store)
    ensures UserToken !in r && UserRole !in r && AdminRole !in r
    ensures forall k :: k in store && k !in {UserToken, UserRole, AdminRole} ==> k in r && r[k] == store[k]
    ensures r.Keys <= store.Keys
  {
    RemoveKeys(store, {UserToken, UserRole, AdminRole})
  }

  /** The role the demo form grants, if any. */
  function DemoRole(username: string, password: string): (r: Option<Role>)
    ensures r == Some(Standard) <==> username == "standard" && password == DemoPassword
    ensures r == Some(Professional) <==> username == "professional" && password == DemoPassword
    ensures r != Some(Consultant)
  {
    if username == "standard" && password == DemoPassword then Some(Standard)
    else if username == "professional" && password == DemoPassword then Some(Professional)
    else None
  }

  /** The name stored for a role, looked up through the backend code table
      the way the form does. */
  function StoredName(r: Role): (name: string)
    ensures name == Name(r)
  {
    BackendRoleToFrontend(Code(r)).value
  }

  /** `handleTraditionalLogin`: the error is cleared; a known account stores
      `userToken = fake-<role>-token` and `userRole = <role>` and goes to `/`;
      anything else shows the error and writes nothing. */
  function TraditionalLogin(store: Store, error: string, username: string, password: string): (r: Step)
    ensures r.nav == Navigate("/") <==> DemoRole(username, password).Some?
    ensures r.nav == Stay <==> DemoRole(username, password).None?
    ensures DemoRole(username, password).Some? ==>
      var role := Name(DemoRole(username, password).value);
      && r.store == store[UserToken := "fake-" + role + "-token"][UserRole := role]
      && r.error == []
    ensures DemoRole(username, password).None? ==> r.store == store && r.error == BadCredentials
  {
    match DemoRole(username, password)
    case Some(role) =>
      var name := StoredName(role);
      Step(store[UserToken := "fake-" + name + "-token"][UserRole := name], [], Navigate("/"))
    case None => Step(store, BadCredentials, Stay)
  }

  /** The fields of the `POST /auth/google/token` reply: `token` and `role`. */
  datatype GoogleAuth = GoogleAuth(token: Option<string>, role: Option<string>)

  /** The session a Google reply grants: a non-empty token and a role code
      the table maps, both needed. */
  function GrantedSession(auth: GoogleAuth): (s: Option<(string, string)>)
    ensures s.Some? <==> auth.token.Some? && auth.token.value != [] && auth.role.Some? && auth.role.value in {"1", "2", "3"}
    ensures s.Some? ==> s.value.0 == auth.token.value && Some(s.value.1) == BackendRoleToFrontend(auth.role.value)
  {
    var name := if auth.role.Some? then BackendRoleToFrontend(auth.role.value) else None;
    if auth.token.Some? && auth.token.value != [] && name.Some? then Some((auth.token.value, name.value))
    else None
  }

  /** `handleGoogleSuccess`: a granted session is stored and the router goes
      to `/` (the error shown is left as it was); any failure writes nothing
      and shows the Google prefix followed by what failed: the reply reader's
      error, or the invalid-session text when the reply grants no session. */
  function GoogleLogin(store: Store, error: string, reply: Reply<GoogleAuth>): (r: Step)
    ensures var ok := ReadJson(BackendAuthError, reply).Ok? && GrantedSession(reply.body.payload).Some?;
            && (r.nav == Navigate("/") <==> ok)
            && (ok ==> var s := GrantedSession(reply.body.payload).value;
                       r.store == store[UserToken := s.0][UserRole := s.1] && r.error == error)
            && (!ok ==> r.store == store && r.nav == Stay && Text.StartsWith(r.error, GooglePrefix))
    ensures ReadJson(BackendAuthError, reply).Err? ==>
              r.error == GooglePrefix + ReadJson(BackendAuthError, reply).message
    ensures ReadJson(BackendAuthError, reply).Ok? && GrantedSession(reply.body.payload).None? ==>
              r.error == GooglePrefix + InvalidSession
  {
    var message := match ReadJson(BackendAuthError, reply)
      case Err(m) => Some(m)
      case Ok(auth) => if GrantedSession(auth).None? then Some(InvalidSession) else None;
    match message
    case Some(m) => Step(store, GooglePrefix + m, Stay)
    case None =>
      var s := GrantedSession(reply.body.payload).value;
      Step(store[UserToken := s.0][UserRole := s.1], error, Navigate("/"))
  }

  /** A reply that carries a token but an unknown role code is refused. */
  lemma UnknownRoleRefused(store: Store, error: string, status: nat, statusText: string, message: Option<string>, token: string, code: string)
    requires IsOk(status) && code !in {"1", "2", "3"}
    ensures var r := GoogleLogin(store, error, Response(status, statusText, Json(message, GoogleAuth(Some(token), Some(code)))));
            r.store == store && r.error == GooglePrefix + InvalidSession
  {
  }

  /** `handleGoogleError`: the Google pop-up failed; only the error changes. */
  function GoogleError(store: Store): (r: Step)
    ensures r.store == store && r.nav == Stay && r.error == GooglePopupError
  {
    Step(store, GooglePopupError, Stay)
  }
}

=== FILE: login_admin.dfy ===
/** The administrator login view: arriving drops the admin role, and only
    the fixed demo credentials grant it. */
module LoginAdmin {
  import opened Session

  const AdminUsername := "admin"
  const AdminPassword := "adminpass"
  const FullAccess := "full_access"
  const BadCredentials := "Credenciales de administrador incorrectas."

  /** Arriving at the view: only `adminRole` is removed. */
  function Enter(store: Store): (r: Store)
    ensures r.Keys == store.Keys - {AdminRole}
    ensures forall k :: k in r ==> r[k] == store[k]
  {
    RemoveKeys(store, {AdminRole})
  }

  /** `handleLogin`: whatever error was shown is cleared first; the demo
      credentials store `adminRole = full_access` and go to the user manager,
      anything else shows the error and writes nothing. */
  function AdminLogin(store: Store, error: string, username: string, password: string): (r: Step)
    ensures r.nav == Navigate("/user-manager") <==> username == AdminUsername && password == AdminPassword
    ensures r.nav.Stay? <==> !(username == AdminUsername && password == AdminPassword)
    ensures r.nav.Navigate? ==> r.store == store[AdminRole := FullAccess] && r.error == []
    ensures r.nav.Stay? ==> r.store == store && r.error == BadCredentials
  {
    var cleared := [];
    if username == AdminUsername && password == AdminPassword then
      Step(store[AdminRole := FullAccess], cleared, Navigate("/user-manager"))
    else
      Step(store, BadCredentials, Stay)
  }

  /** After arriving at the view and trying to log in, the admin role is
      held exactly when the credentials were right, and then it is the full
      access role. */
  lemma AdminRoleOnlyAfterLogin(store: Store, error: string, username: string, password: string)
    ensures var r := AdminLogin(Enter(store), error, username, password).store;
            && (AdminRole in r <==> username == AdminUsername && password == AdminPassword)
            && (AdminRole in r ==> r[AdminRole] == FullAccess)
  {
  }

  /** Logging in and then out of the admin panels leaves the store as the
      login view's entry left it. */
  lemma AdminLoginLogout(store: Store, error: string)
    ensures AdminLogout(AdminLogin(Enter(store), error, AdminUsername, AdminPassword).store).0 == Enter(store)
  {
    var entered := Enter(store);
    var out := AdminLogout(entered[AdminRole := FullAccess]).0;
    assert out.Keys == entered.Keys;
  }
}

=== FILE: options.dfy ===
/** An optional value, shared by every module that reads a field that may be
    missing. */
module Options {

  datatype Option<T> = None | Some(value: T)
}

=== FILE: project_analysis.dfy ===
/** The project analysis screen: the risk band of a chart, and the chat that
    sends the user's message to the agent endpoint and appends its reply or an
    error message. */
module ProjectAnalysis {
  import Text
  import opened Options
  import opened Http
  import opened Chat

  /** `{ color, text }` as `getRiskLevel` returns it. */
  datatype RiskLevel = RiskLevel(color: string, text: string)

  const Low := RiskLevel("#4CAF50", "Riesgo Bajo")
  const LowMedium := RiskLevel("#FFEB3B", "Riesgo Bajo-Medio")
  const MediumHigh := RiskLevel("#FF9800", "Riesgo Medio-Alto")
  const High := RiskLevel("#F44336", "Riesgo Alto")

  /** The four bands from lowest to highest, and the upper bound of each of
      the first three. */
  const Bands: seq<RiskLevel> := [Low, LowMedium, MediumHigh, High]
  const Bounds: seq<int> := [25, 50, 75]

  /** `getRiskLevel(riskPercentage)`. */
  function GetRiskLevel(risk: int): (r: RiskLevel)
    ensures r in Bands
    ensures risk <= 25 ==> r == Low
    ensures 25 < risk <= 50 ==> r == LowMedium
    ensures 50 < risk <= 75 ==> r == MediumHigh
    ensures 75 < risk ==> r == High
  {
    if risk <= 25 then Low
    else if risk <= 50 then LowMedium
    else if risk <= 75 then MediumHigh
    else High
  }

  /** How many of the bounds `risk` exceeds. */
  function Exceeded(bounds: seq<int>, risk: int): (n: nat)
    ensures n <= |bounds|
  {
    if |bounds| == 0 then 0
    else (if bounds[0] < risk then 1 else 0) + Exceeded(bounds[1..], risk)
  }

  /** A higher risk exceeds at least as many bounds. */
  lemma {:induction false} ExceededMonotone(bounds: seq<int>, a: int, b: int)
    requires a <= b
    ensures Exceeded(bounds, a) <= Exceeded(bounds, b)
    decreases |bounds|
  {
    if |bounds| > 0 {
      ExceededMonotone(bounds[1..], a, b);
    }
  }

  /** Table reading of `getRiskLevel`: the band is the one whose index is the
      number of bounds the risk exceeds. */
  lemma GetRiskLevelByTable(risk: int)
    ensures GetRiskLevel(risk) == Bands[Exceeded(Bounds, risk)]
  {
    assert Bounds[1..] == [50, 75] && [50, 75][1..] == [75] && [75][1..] == [];
    assert Exceeded([75], risk) == (if 75 < risk then 1 else 0);
    assert Exceeded([50, 75], risk) == (if 50 < risk then 1 else 0) + Exceeded([75], risk);
  }

  /** The position of a band, lowest first. */
  function Rank(l: RiskLevel): nat {
    if l == Low then 0 else if l == LowMedium then 1 else if l == MediumHigh then 2 else 3
  }

  /** `getRiskLevel` is monotone: a higher risk never gives a lower band. */
  lemma GetRiskLevelMonotone(a: int, b: int)
    requires a <= b
    ensures Rank(GetRiskLevel(a)) <= Rank(GetRiskLevel(b))
  {
    GetRiskLevelByTable(a);
    GetRiskLevelByTable(b);
    ExceededMonotone(Bounds, a, b);
    assert forall i :: 0 <= i < |Bands| ==> Rank(Bands[i]) == i;
  }

  /** The four bands are told apart by their text and by their colour. */
  lemma BandsDistinct()
    ensures forall i, j :: 0 <= i < j < |Bands| ==> Bands[i].text != Bands[j].text && Bands[i].color != Bands[j].color
  {
  }

  const AgentId := "0"
  const FallbackReply := "El agente no devolvió una respuesta."
  const ConnectError := "Error: No se pudo conectar con el agente."
  const ServerError := "Error del servidor"

  /** The body of the `PUT /agent/chat` call: `{ idagente, msg }`. */
  datatype AgentRequest = AgentRequest(agentId: string, msg: string)

  /** A send waiting for the agent: its user message's id and the request. */
  datatype Pending = Pending(userId: int, request: AgentRequest)

  /** The view after the synchronous half of a send, and the request it
      issued if any. */
  datatype Submitted = Submitted(view: ChatView, pending: Option<Pending>)

  /** The agent endpoint's reply; the payload is the `response` field. */
  type AgentReply = Reply<Option<string>>

  /** The synchronous half of `handleSendMessage`: a blank input does nothing
      and calls nobody; otherwise the trimmed text is appended as a user
      message with a fresh id, the box is cleared and the request is issued. */
  function Submit(v: ChatView): (s: Submitted)
    ensures Text.Blank(v.input) ==> s.view == v && s.pending == None
    ensures !Text.Blank(v.input) ==>
      && s.pending.Some?
      && s.pending.value.request == AgentRequest(AgentId, Text.Trim(v.input))
      && s.view.messages == v.messages + [Message(s.pending.value.userId, User, Text.Trim(v.input))]
      && (forall i :: 0 <= i < |v.messages| ==> v.messages[i].id < s.pending.value.userId)
      && (|v.messages| == 0 ==> s.pending.value.userId == 1)
      && (|v.messages| > 0 ==> exists i :: 0 <= i < |v.messages| && v.messages[i].id == s.pending.value.userId - 1)
      && s.view.input == []
  {
    var text := Text.Trim(v.input);
    if text == [] then Submitted(v, None)
    else
      var id := NextId(v.messages);
      Submitted(ChatView(v.messages + [Message(id, User, text)], []), Some(Pending(id, AgentRequest(AgentId, text))))
  }

  /** The agent message's text: the reply's `response` (or the fallback text
      when it is missing or empty), or a connection error naming what failed. */
  function AgentText(reply: AgentReply): (t: string)
    ensures ReadJson(ServerError, reply).Ok? ==>
      var response := ReadJson(ServerError, reply).value;
      t == (if response.Some? && response.value != [] then response.value else FallbackReply)
    ensures ReadJson(ServerError, reply).Err? ==>
      t == ConnectError + " (" + ReadJson(ServerError, reply).message + ")"
    ensures t != []
  {
    match ReadJson(ServerError, reply)
    case Ok(response) => if response.Some? && response.value != [] then response.value else FallbackReply
    case Err(message) => ConnectError + " (" + message + ")"
  }

  /** The asynchronous half: whatever the outcome, one agent message with id
      one past the user message's is appended after the messages shown. */
  function Settle(ms: seq<Message>, p: Pending, reply: AgentReply): (r: seq<Message>)
    ensures |r| == |ms| + 1 && r[..|ms|] == ms
    ensures r[|ms|].sender == Agent && r[|ms|].id == p.userId + 1
    ensures r[|ms|].text == AgentText(reply)
  {
    ms + [Message(p.userId + 1, Agent, AgentText(reply))]
  }

  /** `handleSendMessage` from start to finish, with no other send in between. */
  function SendMessage(v: ChatView, reply: AgentReply): (r: ChatView)
    ensures Text.Blank(v.input) ==> r == v
    ensures !Text.Blank(v.input) ==>
      var n := |v.messages|;
      && |r.messages| == n + 2
      && r.messages[..n] == v.messages
      && r.messages[n] == Message(NextId(v.messages), User, Text.Trim(v.input))
      && r.messages[n + 1] == Message(NextId(v.messages) + 1, Agent, AgentText(reply))
      && r.input == []
  {
    var s := Submit(v);
    match s.pending
    case None => s.view
    case Some(p) => s.view.(messages := Settle(s.view.messages, p, reply))
  }

  /** A completed send keeps the message ids unique. */
  lemma SendKeepsIdsUnique(v: ChatView, reply: AgentReply)
    requires UniqueIds(v.messages)
    ensures UniqueIds(SendMessage(v, reply).messages)
  {
    var s := Submit(v);
    SubmitKeepsIdsUnique(v);
    if s.pending.Some? {
      SettleKeepsIdsUnique(s.view.messages, s.pending.value, reply);
    }
  }

  /** The synchronous half keeps ids unique, and the user message's id is
      the largest one shown. */
  lemma SubmitKeepsIdsUnique(v: ChatView)
    requires UniqueIds(v.messages)
    ensures var s := Submit(v);
            && UniqueIds(s.view.messages)
            && (s.pending.Some? ==> forall i :: 0 <= i < |s.view.messages| ==> s.view.messages[i].id <= s.pending.value.userId)
  {
    var s := Submit(v);
    if s.pending.Some? {
      AppendFreshKeepsUnique(v.messages, s.view.messages[|v.messages|]);
    }
  }

  /** The agent message, one past every id shown, keeps ids unique. */
  lemma SettleKeepsIdsUnique(ms: seq<Message>, p: Pending, reply: AgentReply)
    requires UniqueIds(ms)
    requires forall i :: 0 <= i < |ms| ==> ms[i].id <= p.userId
    ensures UniqueIds(Settle(ms, p, reply))
  {
    AppendFreshKeepsUnique(ms, Message(p.userId + 1, Agent, AgentText(reply)));
  }

  /** A 2xx reply whose `response` is non-empty text shows exactly that text,
      right after the user's message. */
  lemma SuccessShowsResponse(v: ChatView, status: nat, statusText: string, message: Option<string>, response: string)
    requires !Text.Blank(v.input) && IsOk(status) && response != []
    ensures var r := SendMessage(v, Response(status, statusText, Json(message, Some(response))));
            && r.messages[|v.messages|].text == Text.Trim(v.input)
            && r.messages[|v.messages| + 1].sender == Agent
            && r.messages[|v.messages| + 1].text == response
  {
  }

  /** A failed call never takes the user's message back: it stays, followed
      by an agent message that starts with the connection error. */
  lemma FailureKeepsUserMessage(v: ChatView, reply: AgentReply)
    requires !Text.Blank(v.input)
    requires ReadJson(ServerError, reply).Err?
    ensures var r := SendMessage(v, reply);
            && r.messages[|v.messages|].sender == User
            && r.messages[|v.messages|].text == Text.Trim(v.input)
            && Text.StartsWith(r.messages[|v.messages| + 1].text, ConnectError)
  {
    var t := AgentText(reply);
    assert t[..|ConnectError|] == ConnectError;
  }

  /** Any non-2xx status turns into a connection error carrying the server
      error prefix. */
  lemma ServerFailureText(v: ChatView, status: nat, statusText: string, body: Body<Option<string>>)
    requires !Text.Blank(v.input) && !IsOk(status)
    ensures var t := SendMessage(v, Response(status, statusText, body)).messages[|v.messages| + 1].text;
            Text.StartsWith(t, ConnectError + " (" + ServerError + ": ")
  {
    ServerFailureAgentText(Response(status, statusText, body));
  }

  /** The agent text of any non-2xx reply starts with the connection error
      and the server error prefix. */
  lemma ServerFailureAgentText(reply: AgentReply)
    requires reply.Response? && !IsOk(reply.status)
    ensures Text.StartsWith(AgentText(reply), ConnectError + " (" + ServerError + ": ")
  {
    var m := ReadJson(ServerError, reply).message;
    assert Text.StartsWith(m, ServerError + ": ");
    ConnectErrorCarries(m, ServerError + ": ");
  }

  /** Whatever an error message starts with, the connection error built
      from it shows right after the opening parenthesis. */
  lemma ConnectErrorCarries(message: string, p: string)
    requires Text.StartsWith(message, p)
    ensures Text.StartsWith(ConnectError + " (" + message + ")", ConnectError + " (" + p)
  {
    Text.StartsWithWithin(ConnectError + " (", message, ")", p);
  }
}

=== FILE: roles.dfy ===
/** The fixed tables between the backend's codes and the front end's names:
    roles `"1"`/`"2"`/`"3"` and statuses `"A"`/`"I"`. The login screen and the
    user manager hold the same role table. */
module Roles {
  import opened Options

  /** The three roles the backend assigns. */
  datatype Role = Standard | Professional | Consultant

  /** The front-end name of a role, as stored under `userRole`. */
  function Name(r: Role): string {
    match r
    case Standard => "standard"
    case Professional => "professional"
    case Consultant => "consultant"
  }

  /** The backend's code for a role. */
  function Code(r: Role): string {
    match r
    case Standard => "1"
    case Professional => "2"
    case Consultant => "3"
  }

  /** The role name a backend code stands for,
      if any. */
  function BackendRoleToFrontend(code: string): (name: Option<string>)
    ensures name.Some? <==> code in {"1", "2", "3"}
    ensures name.Some? ==> exists r: Role :: Code(r) == code && Name(r) == name.value
  {
    if code == "1" then Some(Name(Standard))
    else if code == "2" then Some(Name(Professional))
    else if code == "3" then Some(Name(Consultant))
    else None
  }

  /** The backend code for a role name, if any. */
  function FrontendRoleToBackend(name: string): (code: Option<string>)
    ensures code.Some? <==> name in {"standard", "professional", "consultant"}
    ensures code.Some? ==> exists r: Role :: Name(r) == name && Code(r) == code.value
  {
    if name == "standard" then Some(Code(Standard))
    else if name == "professional" then Some(Code(Professional))
    else if name == "consultant" then Some(Code(Consultant))
    else None
  }

  /** The two role tables are inverse to each other, in both directions. */
  lemma RoleTablesInverse(name: string, code: string)
    ensures FrontendRoleToBackend(name) == Some(code) <==> BackendRoleToFrontend(code) == Some(name)
  {
  }

  /** Every role survives the trip through its code, and through its name. */
  lemma RoleRoundTrip(r: Role)
    ensures BackendRoleToFrontend(FrontendRoleToBackend(Name(r)).value) == Some(Name(r))
    ensures FrontendRoleToBackend(BackendRoleToFrontend(Code(r)).value) == Some(Code(r))
  {
  }

  /** The backend status code for a user's state: `"A"` for active, `"I"`
      for inactive. */
  function StatusCode(isActive: bool): (code: string)
    ensures code in {"A", "I"}
    ensures code == "A" <==> isActive
  {
    if isActive then "A" else "I"
  }

  /** The user's state a backend status code stands for: `"A"` is active,
      `"I"` inactive, and no other code is defined. */
  function StatusFromCode(code: string): (isActive: Option<bool>)
    ensures isActive.Some? <==> code in {"A", "I"}
    ensures code == "A" ==> isActive == Some(true)
    ensures code == "I" ==> isActive == Some(false)
  {
    if code == "A" then Some(true) else if code == "I" then Some(false) else None
  }

  /** The two status tables are inverse to each other, in both directions. */
  lemma StatusTablesInverse(isActive: bool, code: string)
    ensures StatusCode(isActive) == code <==> StatusFromCode(code) == Some(isActive)
    ensures StatusCode(true) == "A" && StatusCode(false) == "I"
  {
  }
}

=== FILE: session.dfy ===
/** The browser's persisted key/value storage as a map, the three keys the
    screens use, and navigation returned as data. */
module Session {

  type Store = map<string, string>

  const UserToken := "userToken"
  const UserRole := "userRole"
  const AdminRole := "adminRole"

  /** Where a handler sends the router, if anywhere. */
  datatype Nav = Stay | Navigate(path: string)

  /** A login handler's effect: the store after it, the error shown, and
      where the router goes. */
  datatype Step = Step(store: Store, error: string, nav: Nav)

  /** Removing each key in `keys` from the storage: those keys are
      gone and every other entry keeps its value. */
  function RemoveKeys(store: Store, keys: set<string>): (r: Store)
    ensures r.Keys == store.Keys - keys
    ensures forall k :: k in r ==> r[k] == store[k]
  {
    store - keys
  }

  /** A stored value read as a JavaScript truth value: present
      and not the empty string. */
  predicate HasValue(store: Store, key: string) {
    key in store && store[key] != ""
  }

  /** The admin panels' logout: drop `adminRole` only, then go to the admin
      login view. */
  function AdminLogout(store: Store): (r: (Store, Nav))
    ensures r.0.Keys == store.Keys - {AdminRole}
    ensures forall k :: k in r.0 ==> r.0[k] == store[k]
    ensures r.1 == Navigate("/admin-login")
  {
    (RemoveKeys(store, {AdminRole}), Navigate("/admin-login"))
  }
}

=== FILE: text.dfy ===
/** Strings as the screens use them: JavaScript's `trim` and the decimal
    rendering a template literal gives an integer. */
module Text {

  /** The code points `String.prototype.trim` strips: ECMAScript's WhiteSpace
      (tab, vertical tab, form feed, no-break space, byte order mark and the
      Unicode space separators) and LineTerminator (LF, CR, LS, PS). */
  predicate IsSpace(c: char) {
    || c == '\t' || c == '\n' || c == '\U{000B}' || c == '\U{000C}' || c == '\r'
    || c == ' ' || c == '\U{00A0}' || c == '\U{1680}'
    || ('\U{2000}' <= c <= '\U{200A}')
    || c == '\U{2028}' || c == '\U{2029}' || c == '\U{202F}' || c == '\U{205F}'
    || c == '\U{3000}' || c == '\U{FEFF}'
  }

  /** Every character is white space (this includes the empty string). */
  predicate Blank(s: string) {
    forall i :: 0 <= i < |s| ==> IsSpace(s[i])
  }

  /** Empty, or starts and ends with a character `trim` keeps. */
  predicate Bordered(s: string) {
    |s| == 0 || (!IsSpace(s[0]) && !IsSpace(s[|s| - 1]))
  }

  /** `prefix` is an initial segment of `s`. */
  predicate StartsWith(s: string, prefix: string) {
    |prefix| <= |s| && s[..|prefix|] == prefix
  }

  /** A prefix of the middle piece, behind the same leading text, is a
      prefix of the whole. */
  lemma StartsWithWithin(a: string, b: string, c: string, p: string)
    requires StartsWith(b, p)
    ensures StartsWith(a + b + c, a + p)
  {
    assert (a + b + c)[..|a + p|] == a + b[..|p|];
  }

  /** `suffix` is a final segment of `s`. */
  predicate EndsWith(s: string, suffix: string) {
    |suffix| <= |s| && s[|s| - |suffix|..] == suffix
  }

  /** Length of the longest blank prefix. */
  function LeadingSpaces(s: string): (n: nat)
    ensures n <= |s|
    ensures Blank(s[..n])
    ensures n < |s| ==> !IsSpace(s[n])
  {
    if |s| > 0 && IsSpace(s[0]) then
      var t := s[1..];
      var k := LeadingSpaces(t);
      BlankCons(s[0], t[..k]);
      assert s[..k + 1] == [s[0]] + t[..k];
      assert k + 1 < |s| ==> s[k + 1] == t[k];
      k + 1
    else 0
  }

  /** Length of the longest blank suffix. */
  function TrailingSpaces(s: string): (n: nat)
    ensures n <= |s|
    ensures Blank(s[|s| - n..])
    ensures n < |s| ==> !IsSpace(s[|s| - n - 1])
  {
    if |s| > 0 && IsSpace(s[|s| - 1]) then
      var t := s[..|s| - 1];
      var k := TrailingSpaces(t);
      BlankSnoc(t[|t| - k..], s[|s| - 1]);
      assert s[|s| - (k + 1)..] == t[|t| - k..] + [s[|s| - 1]];
      assert k + 1 < |s| ==> s[|s| - (k + 1) - 1] == t[|t| - k - 1];
      k + 1
    else 0
  }

  /** A blank string stays blank with white space put in front. */
  lemma BlankCons(c: char, s: string)
    requires IsSpace(c) && Blank(s)
    ensures Blank([c] + s)
  {
    forall i | 0 <= i < |[c] + s| ensures IsSpace(([c] + s)[i]) {
      if i > 0 { assert ([c] + s)[i] == s[i - 1]; }
    }
  }

  /** A blank string stays blank with white space added at the end. */
  lemma BlankSnoc(s: string, c: char)
    requires Blank(s) && IsSpace(c)
    ensures Blank(s + [c])
  {
    forall i | 0 <= i < |s + [c]| ensures IsSpace((s + [c])[i]) {
      if i < |s| { assert (s + [c])[i] == s[i]; }
    }
  }

  /** `s.trim()`: `s` with its blank prefix and blank suffix removed. The
      result is the middle piece of a split of `s` whose outer pieces are
      blank, and it is empty exactly when `s` is blank. */
  function Trim(s: string): (r: string)
    ensures |r| <= |s|
    ensures Bordered(r)
    ensures r == [] <==> Blank(s)
    ensures LeadingSpaces(s) + |r| <= |s|
    ensures s[LeadingSpaces(s)..LeadingSpaces(s) + |r|] == r
    ensures Blank(s[LeadingSpaces(s) + |r|..])
  {
    var k := LeadingSpaces(s);
    var t := s[k..];
    var j := TrailingSpaces(t);
    var r := t[..|t| - j];
    MiddleSlices(s, k, t, j, r);
    MiddleBordered(s, k, t, j, r);
    MiddleEmpty(s, k, t, j, r);
    r
  }

  /** The middle piece, and the piece after it, as slices of `s`. */
  lemma MiddleSlices(s: string, k: nat, t: string, j: nat, r: string)
    requires k <= |s| && t == s[k..] && j <= |t| && r == t[..|t| - j]
    ensures k + |r| <= |s| && s[k..k + |r|] == r
    ensures s[k + |r|..] == t[|t| - j..]
  {
  }

  /** With the first kept character at `k` and the last one just before
      the final `j` characters, the middle piece is bordered. */
  lemma MiddleBordered(s: string, k: nat, t: string, j: nat, r: string)
    requires k <= |s| && (k < |s| ==> !IsSpace(s[k])) && t == s[k..]
    requires j <= |t| && (j < |t| ==> !IsSpace(t[|t| - j - 1])) && r == t[..|t| - j]
    ensures Bordered(r)
  {
    if |r| > 0 {
      assert r[0] == s[k];
      assert r[|r| - 1] == t[|t| - j - 1];
    }
  }

  /** Between a blank prefix and a blank suffix, the middle piece is empty
      exactly when the whole string is blank. */
  lemma MiddleEmpty(s: string, k: nat, t: string, j: nat, r: string)
    requires k <= |s| && Blank(s[..k]) && (k < |s| ==> !IsSpace(s[k])) && t == s[k..]
    requires j <= |t| && Blank(t[|t| - j..]) && r == t[..|t| - j]
    ensures r == [] <==> Blank(s)
  {
    if r == [] {
      assert s[k..] == t[|t| - j..];
      BlankJoin(s, k);
    } else {
      assert k < |s| && !IsSpace(s[k]);
    }
  }

  /** A string whose prefix up to `k` and suffix from `k` are blank is blank. */
  lemma BlankJoin(s: string, k: nat)
    requires k <= |s| && Blank(s[..k]) && Blank(s[k..])
    ensures Blank(s)
  {
    forall i | 0 <= i < |s| ensures IsSpace(s[i]) {
      if i < k {
        assert s[i] == s[..k][i];
      } else {
        assert s[i] == s[k..][i - k];
      }
    }
  }

  /** Reference characterisation of `trim`: whatever blank text surrounds a
      bordered string, trimming recovers exactly that string. */
  lemma {:induction false} TrimSurrounded(p: string, m: string, q: string)
    requires Blank(p) && Blank(q) && Bordered(m)
    ensures Trim(p + m + q) == m
  {
    var s := p + m + q;
    if m == [] {
      assert Blank(s) by {
        forall i | 0 <= i < |s| ensures IsSpace(s[i]) {
          if i < |p| { assert s[i] == p[i]; } else { assert s[i] == q[i - |p|]; }
        }
      }
    } else {
      LeadingOfSurrounded(p, m, q);
      assert s[|p|..] == m + q;
      TrailingOfSurrounded(m, q);
      assert (m + q)[..|m|] == m;
    }
  }

  /** With a bordered, non-empty middle, the blank prefix `trim` drops is `p`. */
  lemma {:induction false} LeadingOfSurrounded(p: string, m: string, q: string)
    requires Blank(p) && |m| > 0 && !IsSpace(m[0])
    ensures LeadingSpaces(p + m + q) == |p|
  {
    var s := p + m + q;
    var n := LeadingSpaces(s);
    var dropped := s[..n];
    if n < |p| {
      assert false;
    } else if n > |p| {
      SpaceAt(dropped, |p|);
      assert false;
    }
  }

  /** With a non-empty middle that ends in a kept character, the blank suffix
      `trim` drops is `q`. */
  lemma {:induction false} TrailingOfSurrounded(m: string, q: string)
    requires Blank(q) && |m| > 0 && !IsSpace(m[|m| - 1])
    ensures TrailingSpaces(m + q) == |q|
  {
    var t := m + q;
    var n := TrailingSpaces(t);
    var dropped := t[|t| - n..];
    if n < |q| {
      assert false;
    } else if n > |q| {
      SpaceAt(dropped, n - |q| - 1);
      assert false;
    }
  }

  /** Every character of a blank string is white space. */
  lemma SpaceAt(t: string, i: int)
    requires 0 <= i < |t| && Blank(t)
    ensures IsSpace(t[i])
  {
  }

  /** `trim` is idempotent. */
  lemma TrimIdempotent(s: string)
    ensures Trim(Trim(s)) == Trim(s)
  {
    TrimSurrounded([], Trim(s), []);
    assert [] + Trim(s) + [] == Trim(s);
  }

  /** The decimal digit for `d`. */
  function Digit(d: nat): (c: char)
    requires d < 10
    ensures '0' <= c <= '9'
  {
    "0123456789"[d]
  }

  function DigitValue(c: char): (d: nat)
    requires '0' <= c <= '9'
    ensures d < 10
  {
    (c as int - '0' as int) as nat
  }

  predicate AllDigits(s: string) {
    forall i :: 0 <= i < |s| ==> '0' <= s[i] <= '9'
  }

  /** The decimal text of a non-negative integer: decimal digits without
      leading zeros. */
  function NatToString(n: nat): (r: string)
    ensures |r| > 0 && AllDigits(r)
    ensures r[0] == '0' ==> n == 0
    decreases n
  {
    if n < 10 then [Digit(n)] else NatToString(n / 10) + [Digit(n % 10)]
  }

  /** Reads a string of decimal digits back as a number. */
  function ParseNat(s: string): nat
    requires AllDigits(s)
  {
    if |s| == 0 then 0 else 10 * ParseNat(s[..|s| - 1]) + DigitValue(s[|s| - 1])
  }

  /** Decimal rendering loses nothing: parsing it gives the number back. */
  lemma {:induction false} ParseNatToString(n: nat)
    ensures ParseNat(NatToString(n)) == n
    decreases n
  {
    var r := NatToString(n);
    if n < 10 {
      assert DigitValue("0123456789"[n]) == n;
    } else {
      ParseNatToString(n / 10);
      assert r[..|r| - 1] == NatToString(n / 10);
      assert DigitValue("0123456789"[n % 10]) == n % 10;
    }
  }

  /** The decimal text of any integer: a minus sign before the magnitude
      when negative. */
  function IntToString(i: int): (r: string)
    ensures |r| > 0
    ensures i < 0 <==> r[0] == '-'
    ensures var digits := if i < 0 then r[1..] else r;
            && |digits| > 0 && AllDigits(digits)
            && ParseNat(digits) == (if i < 0 then -i else i)
            && (digits[0] == '0' ==> i == 0)
  {
    var magnitude: nat := if i < 0 then -i else i;
    ParseNatToString(magnitude);
    if i < 0 then "-" + NatToString(magnitude) else NatToString(magnitude)
  }

  /** Different naturals render differently. */
  lemma NatToStringInjective(m: nat, n: nat)
    requires NatToString(m) == NatToString(n)
    ensures m == n
  {
    ParseNatToString(m);
    ParseNatToString(n);
  }

  /** Different integers render differently. */
  lemma IntToStringInjective(i: int, j: int)
    requires IntToString(i) == IntToString(j)
    ensures i == j
  {
    if i < 0 && j < 0 {
      assert IntToString(i)[1..] == NatToString(-i);
      assert IntToString(j)[1..] == NatToString(-j);
      NatToStringInjective(-i, -j);
    } else if 0 <= i && 0 <= j {
      NatToStringInjective(i, j);
    }
  }
}

=== FILE: user_manager.dfy ===
/** The admin user manager: the user list read from the backend, and the
    status toggle and delete actions, each of which changes the list only
    after the backend accepts it. */
module UserManager {
  import opened Options
  import opened Http
  import opened Roles

  /** `rol` in a backend user record: its code and its own display name. */
  datatype BackendRol = BackendRol(codrol: string, rol: string)

  /** One entry of `users` in the `GET /management/user/` reply. */
  datatype BackendUser = BackendUser(idusuario: int, email: string, rol: BackendRol, estado: string, fecregistro: string)

  /** A row of the panel's table. */
  datatype User = User(id: int, email: string, role: string, creationDate: string, isActive: bool)

  /** The panel's state: the table, the error banner and the spinner. */
  datatype Panel = Panel(users: seq<User>, error: Option<string>, loading: bool)

  const ListError := "Error al listar usuarios"
  const UpdateError := "Error al actualizar estado"
  const DeleteError := "Error al eliminar usuario"

  /** The mapping `fetchUsers` applies to each backend record: a known role
      code gives its front-end name and an unknown one falls back to the
      record's own role name; `"A"` is active and anything else inactive. */
  function MapUser(u: BackendUser): (r: User)
    ensures r.id == u.idusuario && r.email == u.email && r.creationDate == u.fecregistro
    ensures u.rol.codrol in {"1", "2", "3"} ==> Some(r.role) == BackendRoleToFrontend(u.rol.codrol)
    ensures u.rol.codrol !in {"1", "2", "3"} ==> r.role == u.rol.rol
    ensures r.isActive <==> u.estado == "A"
  {
    var role := match BackendRoleToFrontend(u.rol.codrol)
      case Some(name) => name
      case None => u.rol.rol;
    var active := match StatusFromCode(u.estado)
      case Some(b) => b
      case None => false;
    User(u.idusuario, u.email, role, u.fecregistro, active)
  }

  /** The backend record a table row stands for, when its role is one of the
      three known names. */
  function ToBackend(u: User, rolName: string): (b: BackendUser)
    requires FrontendRoleToBackend(u.role).Some?
  {
    BackendUser(u.id, u.email, BackendRol(FrontendRoleToBackend(u.role).value, rolName), StatusCode(u.isActive), u.creationDate)
  }

  /** Reading back a row that went through the backend's encoding gives the
      same row. */
  lemma MapUserRoundTrip(u: User, rolName: string)
    requires FrontendRoleToBackend(u.role).Some?
    ensures MapUser(ToBackend(u, rolName)) == u
  {
    RoleTablesInverse(u.role, FrontendRoleToBackend(u.role).value);
  }

  /** The table `fetchUsers` builds: each record mapped, in order. */
  function MapUsers(us: seq<BackendUser>): (r: seq<User>)
    ensures |r| == |us|
    ensures forall i :: 0 <= i < |us| ==> r[i] == MapUser(us[i])
  {
    seq(|us|, i requires 0 <= i < |us| => MapUser(us[i]))
  }

  /** `fetchUsers`: on success the table becomes the mapped list and the
      banner is clear; on failure the table is kept and the banner shows the
      error. The spinner is off either way. */
  function LoadUsers(p: Panel, reply: Reply<seq<BackendUser>>): (r: Panel)
    ensures !r.loading
    ensures ReadJson(ListError, reply).Ok? ==> r.users == MapUsers(reply.body.payload) && r.error == None
    ensures ReadJson(ListError, reply).Err? ==> r.users == p.users && r.error == Some(ReadJson(ListError, reply).message)
  {
    match ReadJson(ListError, reply)
    case Ok(us) => Panel(MapUsers(us), None, false)
    case Err(message) => Panel(p.users, Some(message), false)
  }

  /** The backend records a table stands for, each row's role name doubling
      as the record's own role name. */
  function ToBackendAll(users: seq<User>): (bs: seq<BackendUser>)
    requires forall i :: 0 <= i < |users| ==> FrontendRoleToBackend(users[i].role).Some?
    ensures |bs| == |users|
  {
    seq(|users|, i requires 0 <= i < |users| && FrontendRoleToBackend(users[i].role).Some? =>
      ToBackend(users[i], users[i].role))
  }

  /** Loading a successful reply that lists a table's rows, encoded as the
      backend sends them, shows exactly that table with no error. */
  lemma LoadUsersRoundTrip(p: Panel, users: seq<User>, status: nat, statusText: string, message: Option<string>)
    requires forall i :: 0 <= i < |users| ==> FrontendRoleToBackend(users[i].role).Some?
    requires IsOk(status)
    ensures var r := LoadUsers(p, Response(status, statusText, Json(message, ToBackendAll(users))));
            r.users == users && r.error == None && !r.loading
  {
    var bs := ToBackendAll(users);
    forall i | 0 <= i < |users| ensures MapUser(bs[i]) == users[i] {
      MapUserRoundTrip(users[i], users[i].role);
    }
  }

  /** The `PUT` body for a status change, or a `DELETE`, of one user. */
  datatype Request = UpdateStatus(userId: int, status: string) | DeleteUser(userId: int)

  /** A handler's result: the new panel state and the request it sent, if any. */
  datatype Handled = Handled(panel: Panel, request: Option<Request>)

  /** The status code a toggle sends: the opposite of the current status. */
  function ToggleRequest(userId: int, currentStatus: bool): (q: Request)
    ensures q.UpdateStatus? && q.userId == userId
    ensures StatusFromCode(q.status) == Some(!currentStatus)
  {
    UpdateStatus(userId, StatusCode(!currentStatus))
  }

  /** The list update of a successful toggle. */
  function FlipStatus(users: seq<User>, userId: int): (r: seq<User>)
    ensures |r| == |users|
    ensures forall i :: 0 <= i < |users| ==>
      && r[i].id == users[i].id
      && r[i].email == users[i].email
      && r[i].role == users[i].role
      && r[i].creationDate == users[i].creationDate
      && (r[i].isActive != users[i].isActive <==> users[i].id == userId)
  {
    seq(|users|, i requires 0 <= i < |users| =>
      if users[i].id == userId then users[i].(isActive := !users[i].isActive) else users[i])
  }

  /** Toggling the same user twice restores the list. */
  lemma FlipStatusInvolution(users: seq<User>, userId: int)
    ensures FlipStatus(FlipStatus(users, userId), userId) == users
  {
    var r := FlipStatus(FlipStatus(users, userId), userId);
    assert forall i :: 0 <= i < |users| ==> r[i] == users[i];
  }

  /** Two accepted toggles of the same user, the second sent with the status
      the first produced, restore the table. */
  lemma ToggleTwiceRestores(p: Panel, userId: int, currentStatus: bool, first: Reply<()>, second: Reply<()>)
    requires ReadDone(UpdateError, first).Ok? && ReadDone(UpdateError, second).Ok?
    ensures var once := ToggleUserStatus(p, userId, currentStatus, first).panel;
            ToggleUserStatus(once, userId, !currentStatus, second).panel.users == p.users
  {
    FlipStatusInvolution(p.users, userId);
  }

  /** `handleToggleUserStatus`: clears the banner and sends the opposite
      status; the list changes only when the backend accepts it. */
  function ToggleUserStatus(p: Panel, userId: int, currentStatus: bool, reply: Reply<()>): (r: Handled)
    ensures r.request == Some(ToggleRequest(userId, currentStatus))
    ensures r.panel.loading == p.loading
    ensures ReadDone(UpdateError, reply).Ok? ==> r.panel.users == FlipStatus(p.users, userId) && r.panel.error == None
    ensures ReadDone(UpdateError, reply).Err? ==> r.panel.users == p.users && r.panel.error == Some(ReadDone(UpdateError, reply).message)
  {
    var request := ToggleRequest(userId, currentStatus);
    match ReadDone(UpdateError, reply)
    case Ok(_) => Handled(p.(users := FlipStatus(p.users, userId), error := None), Some(request))
    case Err(message) => Handled(p.(error := Some(message)), Some(request))
  }

  /** The table after a delete: every user not carrying `userId`, in order. */
  function RemoveUser(users: seq<User>, userId: int): (r: seq<User>)
    ensures forall u :: u in r <==> u in users && u.id != userId
    ensures |r| <= |users|
  {
    if |users| == 0 then []
    else if users[0].id == userId then RemoveUser(users[1..], userId)
    else [users[0]] + RemoveUser(users[1..], userId)
  }

  /** How many users carry `userId`. */
  function CountId(users: seq<User>, userId: int): nat {
    if |users| == 0 then 0 else (if users[0].id == userId then 1 else 0) + CountId(users[1..], userId)
  }

  /** Deleting takes out exactly the users with that id. */
  lemma {:induction false} RemoveUserCount(users: seq<User>, userId: int)
    ensures |RemoveUser(users, userId)| == |users| - CountId(users, userId)
  {
    if |users| > 0 {
      RemoveUserCount(users[1..], userId);
    }
  }

  /** Deleting keeps the remaining users in their order: removing from a
      concatenation removes from each part. */
  lemma {:induction false} RemoveUserConcat(a: seq<User>, b: seq<User>, userId: int)
    ensures RemoveUser(a + b, userId) == RemoveUser(a, userId) + RemoveUser(b, userId)
    decreases |a|
  {
    if |a| > 0 {
      var ab := a + b;
      assert ab[0] == a[0] && ab[1..] == a[1..] + b;
      RemoveUserConcat(a[1..], b, userId);
      var rest, tail := RemoveUser(a[1..], userId), RemoveUser(b, userId);
      if a[0].id != userId {
        assert [a[0]] + (rest + tail) == ([a[0]] + rest) + tail;
      }
    } else {
      assert a + b == b;
    }
  }

  /** Deleting an id nobody carries leaves the list as it was. */
  lemma {:induction false} RemoveAbsentUser(users: seq<User>, userId: int)
    requires forall i :: 0 <= i < |users| ==> users[i].id != userId
    ensures RemoveUser(users, userId) == users
  {
    if |users| > 0 {
      RemoveAbsentUser(users[1..], userId);
      assert [users[0]] + users[1..] == users;
    }
  }

  /** Deleting the same id again changes nothing. */
  lemma RemoveUserIdempotent(users: seq<User>, userId: int)
    ensures RemoveUser(RemoveUser(users, userId), userId) == RemoveUser(users, userId)
  {
    var r := RemoveUser(users, userId);
    forall i | 0 <= i < |r| ensures r[i].id != userId {
      assert r[i] in r;
    }
    RemoveAbsentUser(r, userId);
  }

  /** `handleDeleteUser`: clears the banner, then asks for confirmation; a
      declined confirmation sends nothing and changes nothing else, and the
      list loses the user only when the backend accepts the delete. */
  function DeleteUserAction(p: Panel, userId: int, confirmed: bool, reply: Reply<()>): (r: Handled)
    ensures r.panel.loading == p.loading
    ensures !confirmed ==> r.request == None && r.panel == p.(error := None)
    ensures confirmed ==> r.request == Some(DeleteUser(userId))
    ensures confirmed && ReadDone(DeleteError, reply).Ok? ==> r.panel.users == RemoveUser(p.users, userId) && r.panel.error == None
    ensures confirmed && ReadDone(DeleteError, reply).Err? ==> r.panel.users == p.users && r.panel.error == Some(ReadDone(DeleteError, reply).message)
  {
    var cleared := p.(error := None);
    if !confirmed then Handled(cleared, None)
    else
      match ReadDone(DeleteError, reply)
      case Ok(_) => Handled(cleared.(users := RemoveUser(p.users, userId)), Some(DeleteUser(userId)))
      case Err(message) => Handled(p.(error := Some(message)), Some(DeleteUser(userId)))
  }
}
